=== FILE: README.md ===
# Schema-driven SQL synthesis of the SQLite CRUD tool

This project models the core of `prueba_db.py` in Dafny. It is a menu-driven tool that can create, update, delete and list records in any table of an SQLite database. The tool has no table-specific code. It reads the table list, the rows of `PRAGMA table_info(<table>)` and the `CREATE TABLE` text kept in `sqlite_master`. From these it works out three things:

- the primary-key column (`obtener_pk`);
- the columns a new record must be given (`obtener_columnas_insert`);
- the SQL text of each INSERT, UPDATE, DELETE and SELECT, with the values to bind to its `?` placeholders.

In the model, the catalog answers and the user's answers are plain inputs. Running a statement is left to the database engine.

Modules:

- `Text` (`text.dfy`): the Python built-ins the tool relies on. These are `sep.join`, `[x] * n`, `c * n`, ASCII `upper`/`lower`, and the substring test `t in s`. The module also defines character counting, which the proofs use and the tool does not.
- `Schema` (`schema.dfy`): a `PRAGMA table_info` row is modelled as `ColumnRow(name, pk)`. The module defines the key (`PrimaryKey`) and the insert filter (`Insertable`) as recursive functions; `InsertableColumns` applies the filter to a DDL text. `FindPrimaryKey` and `InsertColumns` are the source's loops, written as methods and proved equal to those functions.
- `Statements` (`statements.dfy`): the statement texts and their parameter lists. A statement can be executed only if its text holds one `?` per bound value (`BindsAllPlaceholders`). The module proves this for every statement, provided the table and column names contain no `?`.
- `Operations` (`operations.dfy`): the decisions each flow makes after a table has been chosen. Update and delete stop when there is no key, a delete stops unless it is confirmed, and a menu number must be in range. The module also covers the statement each flow builds and the width of the listing's separator line.

Two facts about the code that the model keeps as they are:

- Identifiers are interpolated into the SQL text as they are, with no quoting and no check against an allow-list. The names come from the catalog, never from free text.
- No count check stands between the values and the INSERT. The prompt loop (`prueba_db.py:97-99`) reads exactly one value per insertable column. That is why `RegisterRecord` takes the user's answer lines and binds the first `|columns|` of them.

## Model

| member | source | states |
|---|---|---|
| `Schema.Names` | prueba_db.py:221 | `[info[1] for info in ...]` (also line 137): one name per catalog row, name `i` taken from row `i` |
| `Schema.PrimaryKey` | prueba_db.py:24-27 | A key that is found is the name of one of the table's columns |
| `Schema.FindPrimaryKey` | prueba_db.py:16-27 | The scan with early return gives the same answer as `PrimaryKey`: the first row in PRAGMA order whose flag is exactly 1, or none |
| `Schema.NoPrimaryKeyIffNoFlag` | prueba_db.py:24-27 | No key is reported exactly when no row has the flag 1, in both directions |
| `Schema.PrimaryKeyIsFirstFlagged` | prueba_db.py:24-26 | If row `i` is the first row flagged 1, its name is the key. A later row of a composite key (flag 2, 3, …) is never reported |
| `Schema.HasAutoIncrement` | prueba_db.py:37-52 | `'AUTOINCREMENT' in sql.upper()` holds exactly when the word occurs at some position of the upper-cased DDL (via `Text.ContainsAt`) |
| `Schema.Insertable` | prueba_db.py:43-58 | The filter over the rows, given whether the marker was found; it never returns more names than rows. `InsertableWithMarker`, `InsertableWithoutMarker`, `InsertableKeepsNonKeys` and `InsertableFromRows` pin down which names it keeps |
| `Schema.InsertableColumns` | prueba_db.py:29-58 | The columns a new record is asked for: an order-preserving subsequence of the column names (via `InsertableIsSubsequence`), computed by the loop `InsertColumns` |
| `Schema.InsertColumns` | prueba_db.py:29-58 | The loop with `continue`/`append` returns exactly `InsertableColumns(ddl, rows)`. The DDL is upper-cased once. The marker is looked up inside the loop, and only for rows flagged 1, because the test short-circuits |
| `Schema.InsertableIsSubsequence` | prueba_db.py:43-58 | The insert columns are an order-preserving subsequence of the column names |
| `Schema.InsertableFromRows` | prueba_db.py:45-56 | Every insert column is the name of some row. When the marker is present, that row is not flagged 1 |
| `Schema.InsertableKeepsNonKeys` | prueba_db.py:45-56 | Every column whose flag is not 1 is asked for, whatever the DDL says |
| `Schema.InsertableWithoutMarker` | prueba_db.py:52-56 | Without `AUTOINCREMENT` in the upper-cased DDL, all column names are returned unchanged and in order |
| `Schema.InsertableWithMarker` | prueba_db.py:45-56 | With the marker, the names returned are exactly those of rows not flagged 1, and the result is shorter by the number of flagged rows |
| `Schema.MarkerAnywhere` | prueba_db.py:37-52 | Writing the marker anywhere in the DDL, in any ASCII case, switches the filter on. This is the whole-text heuristic |
| `Schema.KeyInsertableIffNoMarker` | prueba_db.py:45-56 | If the table has a key and its column names are distinct, the key is asked for on insert exactly when the DDL lacks the marker |
| `Text.Upper` | prueba_db.py:37 | `sql.upper()` keeps the length and leaves no lower-case ASCII letter |
| `Text.Lower` | prueba_db.py:187 | `confirm.lower()` keeps the length and leaves no upper-case ASCII letter |
| `Text.Repeat` | prueba_db.py:103 | `["?"] * n` (and `"-" * w` at line 231) has `n` items, each equal to the repeated one |
| `Text.ContainsAt` | prueba_db.py:52 | The substring test holds exactly when the marker occurs at some position of the text |
| `Text.Join` | prueba_db.py:102-103 | The joined text is as long as the items plus one separator between each pair |
| `Text.CountJoin` | prueba_db.py:102-103 | If the separator does not contain a character, the joined text holds that character exactly as often as the items do |
| `Statements.Placeholders` | prueba_db.py:103 | `", ".join(["?"] * n)` is `3n-2` characters long (empty for `n = 0`); `PlaceholdersCount` proves it holds exactly `n` marks |
| `Statements.PlaceholdersCount` | prueba_db.py:103 | The placeholder list holds exactly `n` question marks and is `3n-2` characters long (empty for `n = 0`) |
| `Statements.BuildInsert` | prueba_db.py:102-105 | The f-string of line 105, bound with the values in reading order; `InsertBindsAll` proves one `?` per value |
| `Statements.BuildUpdate` | prueba_db.py:152-154 | The f-string of line 152, bound with `(nuevo_valor, id_val)` as at line 154; `UpdateBindsTwo` proves exactly two `?` |
| `Statements.BuildDelete` | prueba_db.py:192-195 | The f-string of line 192, bound with `(id_val,)` as at line 195; `DeleteBindsOne` proves exactly one `?` |
| `Statements.BuildSelectAll` | prueba_db.py:224 | `SELECT * FROM {tabla}`, run without parameters; `SelectAllBindsNone` proves it holds no `?` |
| `Statements.InsertBindsAll` | prueba_db.py:102-108 | The INSERT text holds one `?` per bound value, and the values are bound in the order they were read |
| `Statements.UpdateBindsTwo` | prueba_db.py:152-154 | The UPDATE text holds exactly two `?`, bound to the new value and then the key value |
| `Statements.DeleteBindsOne` | prueba_db.py:192-195 | The DELETE text holds exactly one `?`, bound to the key value alone |
| `Statements.SelectAllBindsNone` | prueba_db.py:224 | The SELECT-all text holds no `?` and is run without parameters |
| `Operations.ChooseOption` | prueba_db.py:77-78 | A menu number picks an entry exactly when `1 <= option <= len`, and whatever it picks is one of the entries |
| `Operations.MenuLabelPicksEntry` | prueba_db.py:71-78 | When the entries are distinct, answering the printed label `i+1` picks entry `i`, and no other answer does |
| `Operations.SelectTable` | prueba_db.py:66-80 | An empty table list fails before any prompt. Otherwise the answer gives a table exactly when it is in range, and that table is `tables[option-1]` |
| `Operations.SelectTablePicksLabel` | prueba_db.py:71-78 | When the table names are distinct, answering the printed label `i+1` selects table `i`, and no other answer does |
| `Operations.ConfirmsDelete` | prueba_db.py:187-189 | `confirm.lower() == 's'` holds exactly for the answers `s` and `S` |
| `Operations.RegisterRecord` | prueba_db.py:94-105 | One value is bound per insertable column: the answers read for the columns, in column order |
| `Operations.RegisterRecordBindsEveryColumn` | prueba_db.py:94-108 | The INSERT that is run names the insertable columns in catalog order, binds the answers in that order, and holds exactly as many `?` as there are insertable columns |
| `Operations.UpdateRecord` | prueba_db.py:126-154 | A missing key stops the flow before anything else, and exactly then. An out-of-range column number stops it next. Otherwise the parameters are `(new value, key value)` |
| `Operations.UpdateRecordTargetsKey` | prueba_db.py:144-154 | A successful update sets the chosen column, filters on the first column flagged 1, and binds every placeholder |
| `Operations.DeleteRecord` | prueba_db.py:176-195 | A missing key stops the flow, and exactly then. Otherwise anything but `s`/`S` cancels it. A built DELETE binds only the key value |
| `Operations.DeleteRecordTargetsKey` | prueba_db.py:176-195 | A confirmed delete filters on the first column flagged 1 and binds every placeholder |
| `Operations.ListRecords` | prueba_db.py:220-224 | The headers are the column names in catalog order, and the query is `SELECT * FROM <table>`, run without parameters |
| `Operations.ListRecordsWellFormed` | prueba_db.py:220-231 | The listing's query binds every placeholder it holds, and its separator is three characters longer than its header line |
| `Operations.HeaderLine` | prueba_db.py:230 | `" \| ".join(cabeceras)` is as long as the headers plus three characters between each pair |
| `Operations.Separator` | prueba_db.py:231 | The dashed line (printed again at line 241) is `SeparatorWidth` characters long and made of `-` only; `SeparatorOutrunsHeader` proves that width is the header line's length plus 3 |
| `Operations.SeparatorOutrunsHeader` | prueba_db.py:230-231 | The separator width `sum(len(c)) + 3*len(cabeceras)` is three more than the length of the header line (zero when there are no headers) |

## Left out

- `conexion_db.py` is not part of this model. It only opens the database file and runs a test query.
- Executing statements is left out: `cursor.execute`, `fetchall`, `fetchone`, `commit`, `rollback`, `lastrowid` and `rowcount`. These are the SQLite engine's behaviour. The catalog answers are inputs: the rows of `PRAGMA table_info`, the DDL text and the table list. So the `sqlite_%` filter of `obtener_tablas` (line 11) is not modelled.
- One catalog read is assumed per flow. The update flow reads `PRAGMA table_info` twice (lines 126 and 136), and the model gives both reads the same rows.
- Terminal I/O is left out: `input()`, `print()`, the texts printed to the user, the main menu loop (lines 249-284) and the retry loop of `seleccionar_tabla` (lines 74-82). Only the decision taken on one answer is modelled. For table selection, `InvalidOption` stands for "ask again".
- `int(input(...))` parsing and the `ValueError`/`IndexError`/`sqlite3.Error` handlers are left out (lines 81-82, 112-116, 162-166, 203-207). Menu answers are taken as integers.
- The printing of the data rows (`" | ".join(map(str, fila))`, line 239) is left out: it depends on Python's `str` of SQLite values.
- `Text.Upper`, `Text.Lower`: only ASCII letters change case. Python's `str.upper()`/`str.lower()` follow full Unicode case mapping.
- `Operations.RegisterRecord`: it requires at least one answer line per insertable column. With fewer, `input()` raises an end-of-file error that the source does not handle.
- `Statements.BindsAllPlaceholders` states only that placeholders and parameters match in number. It does not say the text is valid SQL. A table whose only column is an `AUTOINCREMENT` key gets no insert columns, so the INSERT text is `INSERT INTO t () VALUES ()`. SQLite rejects that text as a syntax error, which the source reports through its handler at lines 112-116.

=== FILE: operations.dfy ===
/** The decisions the interactive flows of `prueba_db.py` take between
    reading the user's answers and executing a statement: which table or
    column a menu number picks, whether a delete was confirmed, whether an
    update or delete can go ahead at all, which statement is built, and how
    wide the listing's separator line is. The answers and the catalog rows
    are inputs; running the statement is left to the database engine. */
module Operations {
  import opened Text
  import opened Schema
  import opened Statements

  /** Why a flow stops without building a statement. */
  datatype Failure =
    | NoTables       // the catalog lists no user table
    | InvalidOption  // a menu number outside 1 .. number of entries
    | NoPrimaryKey   // update or delete on a table without a column flagged 1
    | Cancelled      // a delete that was not confirmed

  datatype Result<T> = Ok(value: T) | Err(failure: Failure)

  // ---------------------------------------------------------------------
  // Menus and confirmation
  // ---------------------------------------------------------------------

  /** A menu answer picks entry `option - 1` when `1 <= option <= |items|`
      and nothing otherwise. */
  function ChooseOption(items: seq<string>, option: int): (r: Option<string>)
    ensures r.Some? <==> 1 <= option <= |items|
    ensures r.Some? ==> r.value in items && r.value == items[option - 1]
  {
    if 1 <= option <= |items| then Some(items[option - 1]) else None
  }

  /** The menu prints entry `i` under the label `i + 1`; answering that label
      picks that entry, and, when the entries are distinct, no other label
      does. */
  lemma MenuLabelPicksEntry(items: seq<string>, i: int, option: int)
    requires 0 <= i < |items|
    requires forall j, k :: 0 <= j < k < |items| ==> items[j] != items[k]
    ensures ChooseOption(items, option) == Some(items[i]) <==> option == i + 1
  {
  }

  /** `seleccionar_tabla` for one answer: no table at all is a failure of
      its own; a number out of range makes the menu ask again. */
  function SelectTable(tables: seq<string>, option: int): (r: Result<string>)
    ensures r == Err(NoTables) <==> tables == []
    ensures r.Ok? <==> tables != [] && 1 <= option <= |tables|
    ensures r == Err(InvalidOption) <==> tables != [] && !(1 <= option <= |tables|)
    ensures r.Ok? ==> r.value in tables && r.value == tables[option - 1]
  {
    if tables == [] then Err(NoTables)
    else match ChooseOption(tables, option)
      case Some(t) => Ok(t)
      case None => Err(InvalidOption)
  }

  /** The table menu prints table `i` under the label `i + 1`: that label
      selects it, and, since the catalog lists each table once, no other
      answer does. */
  lemma SelectTablePicksLabel(tables: seq<string>, i: int, option: int)
    requires 0 <= i < |tables|
    requires forall j, k :: 0 <= j < k < |tables| ==> tables[j] != tables[k]
    ensures SelectTable(tables, option) == Ok(tables[i]) <==> option == i + 1
  {
    MenuLabelPicksEntry(tables, i, option);
  }

  /** `confirm.lower() == 's'`, with ASCII lower-casing: only the answers
      `s` and `S` confirm a delete. */
  function ConfirmsDelete(answer: string): (ok: bool)
    ensures ok <==> answer == "s" || answer == "S"
  {
    if Lower(answer) == "s" then
      assert answer == [answer[0]];
      true
    else
      false
  }

  // ---------------------------------------------------------------------
  // Create, update, delete, read
  // ---------------------------------------------------------------------

  /** `registrar_registro` once a table is chosen: one answer is read per
      insertable column, in column order, and bound to the INSERT. */
  function RegisterRecord(table: string, ddl: string, rows: seq<ColumnRow>, answers: seq<string>): (st: Statement)
    requires |answers| >= |InsertableColumns(ddl, rows)|
    ensures |st.params| == |InsertableColumns(ddl, rows)|
    ensures st.params == answers[..|InsertableColumns(ddl, rows)|]
  {
    var columns := InsertableColumns(ddl, rows);
    BuildInsert(table, columns, answers[..|columns|])
  }

  /** The INSERT that `registrar_registro` runs lists the insertable columns
      in catalog order and holds exactly one placeholder per column, the
      placeholder in position `i` bound to the answer read for column `i`. */
  lemma RegisterRecordBindsEveryColumn(table: string, ddl: string, rows: seq<ColumnRow>, answers: seq<string>)
    requires |answers| >= |InsertableColumns(ddl, rows)|
    requires PlainName(table) && forall i :: 0 <= i < |rows| ==> PlainName(rows[i].name)
    ensures RegisterRecord(table, ddl, rows, answers)
         == BuildInsert(table, InsertableColumns(ddl, rows), answers[..|InsertableColumns(ddl, rows)|])
    ensures BindsAllPlaceholders(RegisterRecord(table, ddl, rows, answers))
    ensures Count(RegisterRecord(table, ddl, rows, answers).sql, '?') == |InsertableColumns(ddl, rows)|
  {
    var columns := InsertableColumns(ddl, rows);
    forall i | 0 <= i < |columns|
      ensures PlainName(columns[i])
    {
      InsertableFromRows(HasAutoIncrement(ddl), rows, columns[i]);
    }
    InsertBindsAll(table, columns, answers[..|columns|]);
  }

  /** `actualizar_registro` once a table is chosen: the key is looked up
      first and its absence stops the flow before anything else; then the
      column number is checked; then the UPDATE is bound with the new value
      followed by the key value. */
  function UpdateRecord(table: string, rows: seq<ColumnRow>, keyValue: string, option: int, newValue: string): (r: Result<Statement>)
    ensures r == Err(NoPrimaryKey) <==> PrimaryKey(rows).None?
    ensures r == Err(InvalidOption) <==> PrimaryKey(rows).Some? && !(1 <= option <= |rows|)
    ensures r.Ok? <==> PrimaryKey(rows).Some? && 1 <= option <= |rows|
    ensures r.Ok? ==> r.value == BuildUpdate(table, rows[option - 1].name, PrimaryKey(rows).value, newValue, keyValue)
    ensures r.Ok? ==> r.value.params == [newValue, keyValue]
  {
    match PrimaryKey(rows)
    case None => Err(NoPrimaryKey)
    case Some(key) =>
      match ChooseOption(Names(rows), option)
      case None => Err(InvalidOption)
      case Some(column) => Ok(BuildUpdate(table, column, key, newValue, keyValue))
  }

  /** A successful update sets the column the user picked, selects the row
      by the first column flagged 1, and binds exactly its two values. */
  lemma UpdateRecordTargetsKey(table: string, rows: seq<ColumnRow>, keyValue: string, option: int, newValue: string, k: int)
    requires 0 <= k < |rows| && rows[k].pk == 1 && forall j :: 0 <= j < k ==> rows[j].pk != 1
    requires 1 <= option <= |rows|
    requires PlainName(table) && forall i :: 0 <= i < |rows| ==> PlainName(rows[i].name)
    ensures UpdateRecord(table, rows, keyValue, option, newValue)
         == Ok(BuildUpdate(table, rows[option - 1].name, rows[k].name, newValue, keyValue))
    ensures BindsAllPlaceholders(UpdateRecord(table, rows, keyValue, option, newValue).value)
  {
    PrimaryKeyIsFirstFlagged(rows, k);
    UpdateBindsTwo(table, rows[option - 1].name, rows[k].name, newValue, keyValue);
  }

  /** `eliminar_registro` once a table is chosen: no key stops the flow;
      otherwise only a confirmed answer builds the DELETE, bound with the
      key value alone. */
  function DeleteRecord(table: string, rows: seq<ColumnRow>, keyValue: string, answer: string): (r: Result<Statement>)
    ensures r == Err(NoPrimaryKey) <==> PrimaryKey(rows).None?
    ensures r == Err(Cancelled) <==> PrimaryKey(rows).Some? && answer != "s" && answer != "S"
    ensures r.Ok? <==> PrimaryKey(rows).Some? && (answer == "s" || answer == "S")
    ensures r.Ok? ==> r.value == BuildDelete(table, PrimaryKey(rows).value, keyValue)
    ensures r.Ok? ==> r.value.params == [keyValue]
  {
    match PrimaryKey(rows)
    case None => Err(NoPrimaryKey)
    case Some(key) =>
      if !ConfirmsDelete(answer) then Err(Cancelled)
      else Ok(BuildDelete(table, key, keyValue))
  }

  /** A confirmed delete on a keyed table removes by the first column
      flagged 1 and binds exactly the key value. */
  lemma DeleteRecordTargetsKey(table: string, rows: seq<ColumnRow>, keyValue: string, answer: string, k: int)
    requires 0 <= k < |rows| && rows[k].pk == 1 && forall j :: 0 <= j < k ==> rows[j].pk != 1
    requires answer == "s" || answer == "S"
    requires PlainName(table) && forall i :: 0 <= i < |rows| ==> PlainName(rows[i].name)
    ensures DeleteRecord(table, rows, keyValue, answer) == Ok(BuildDelete(table, rows[k].name, keyValue))
    ensures BindsAllPlaceholders(DeleteRecord(table, rows, keyValue, answer).value)
  {
    PrimaryKeyIsFirstFlagged(rows, k);
    DeleteBindsOne(table, rows[k].name, keyValue);
  }

  /** `consultar_registros`: the headers are the column names in catalog
      order and the query that fetches the rows is `SELECT * FROM <table>`. */
  datatype Listing = Listing(headers: seq<string>, query: Statement)

  function ListRecords(table: string, rows: seq<ColumnRow>): (l: Listing)
    ensures |l.headers| == |rows|
    ensures forall i :: 0 <= i < |rows| ==> l.headers[i] == rows[i].name
    ensures l.query.sql == "SELECT * FROM " + table && l.query.params == []
  {
    Listing(Names(rows), BuildSelectAll(table))
  }

  /** The listing's query binds every placeholder it holds (none), and its
      header line is three characters shorter than its separator. */
  lemma ListRecordsWellFormed(table: string, rows: seq<ColumnRow>)
    requires PlainName(table)
    ensures BindsAllPlaceholders(ListRecords(table, rows).query)
    ensures rows != [] ==>
      |Separator(ListRecords(table, rows).headers)| == |HeaderLine(ListRecords(table, rows).headers)| + 3
  {
    SelectAllBindsNone(table);
    SeparatorOutrunsHeader(ListRecords(table, rows).headers);
  }

  /** The header line, `" | ".join(cabeceras)`. */
  function HeaderLine(headers: seq<string>): (line: string)
    ensures |line| == SumLengths(headers) + (if headers == [] then 0 else 3 * (|headers| - 1))
  {
    Join(" | ", headers)
  }

  /** `sum(len(c) for c in cabeceras) + len(cabeceras) * 3`. */
  function SeparatorWidth(headers: seq<string>): nat
  {
    SumLengths(headers) + 3 * |headers|
  }

  /** The dashed line printed above and below the rows. */
  function Separator(headers: seq<string>): (line: string)
    ensures |line| == SeparatorWidth(headers)
    ensures forall i :: 0 <= i < |line| ==> line[i] == '-'
  {
    Repeat('-', SeparatorWidth(headers))
  }

  /** The separator is three characters longer than the header line it
      underlines (and empty when there is no header). */
  lemma SeparatorOutrunsHeader(headers: seq<string>)
    ensures |Separator(headers)| == if headers == [] then 0 else |HeaderLine(headers)| + 3
  {
  }
}

=== FILE: schema.dfy ===
/** The schema analysis of `prueba_db.py`: which column is the primary key
    (`obtener_pk`) and which columns a new record must be asked for
    (`obtener_columnas_insert`). The catalog answers (the rows of
    `PRAGMA table_info(<table>)` and the `sql` text stored in
    `sqlite_master`) are inputs, not queries. */
module Schema {
  import opened Text

  datatype Option<T> = None | Some(value: T)

  /** One row of `PRAGMA table_info`: the column name (field 1) and the
      primary-key flag (field 5). SQLite writes 0 for a column outside the
      key and 1, 2, ... for the columns of the key, in key order. */
  datatype ColumnRow = ColumnRow(name: string, pk: int)

  /** The column names in catalog order, `[info[1] for info in rows]`. */
  function Names(rows: seq<ColumnRow>): (names: seq<string>)
    ensures |names| == |rows|
    ensures forall i :: 0 <= i < |rows| ==> names[i] == rows[i].name
  {
    seq(|rows|, i requires 0 <= i < |rows| => rows[i].name)
  }

  /** SQLite never reports two columns of one table under the same name. */
  predicate DistinctNames(rows: seq<ColumnRow>)
  {
    forall i, j :: 0 <= i < j < |rows| ==> rows[i].name != rows[j].name
  }

  // ---------------------------------------------------------------------
  // Primary-key discovery
  // ---------------------------------------------------------------------

  /** The name of the first row, in catalog order, whose flag is exactly 1. */
  function PrimaryKey(rows: seq<ColumnRow>): (pk: Option<string>)
    ensures pk.Some? ==> pk.value in Names(rows)
  {
    if rows == [] then None
    else if rows[0].pk == 1 then Some(rows[0].name)
    else
      var rest := PrimaryKey(rows[1..]);
      assert rest.Some? ==> rest.value in Names(rows) by {
        if rest.Some? {
          var j :| 0 <= j < |rows| - 1 && Names(rows[1..])[j] == rest.value;
          assert Names(rows)[j + 1] == rest.value;
        }
      }
      rest
  }

  /** `obtener_pk`: scans the rows and returns at the first flag equal to 1. */
  method FindPrimaryKey(rows: seq<ColumnRow>) returns (pk: Option<string>)
    ensures pk == PrimaryKey(rows)
  {
    for i := 0 to |rows|
      invariant PrimaryKey(rows[i..]) == PrimaryKey(rows)
    {
      assert rows[i..][1..] == rows[i + 1..];
      if rows[i].pk == 1 {
        return Some(rows[i].name);
      }
    }
    return None;
  }

  /** There is no key exactly when no row carries the flag 1. */
  lemma {:induction false} NoPrimaryKeyIffNoFlag(rows: seq<ColumnRow>)
    ensures PrimaryKey(rows).None? <==> forall i :: 0 <= i < |rows| ==> rows[i].pk != 1
  {
    if rows != [] && rows[0].pk != 1 {
      NoPrimaryKeyIffNoFlag(rows[1..]);
      assert forall i :: 1 <= i < |rows| ==> rows[i] == rows[1..][i - 1];
    }
  }

  /** The key found is the name of the first row flagged 1: a row flagged 2
      or more (a later column of a composite key) is never reported. */
  lemma {:induction false} PrimaryKeyIsFirstFlagged(rows: seq<ColumnRow>, i: int)
    requires 0 <= i < |rows| && rows[i].pk == 1
    requires forall j :: 0 <= j < i ==> rows[j].pk != 1
    ensures PrimaryKey(rows) == Some(rows[i].name)
  {
    if i > 0 {
      PrimaryKeyIsFirstFlagged(rows[1..], i - 1);
    }
  }

  // ---------------------------------------------------------------------
  // Insertable columns
  // ---------------------------------------------------------------------

  /** `'AUTOINCREMENT' in sql.upper()`: a search over the whole DDL text,
      not tied to any particular column. */
  function HasAutoIncrement(ddl: string): (found: bool)
    ensures found <==> exists i :: OccursAt(Upper(ddl), "AUTOINCREMENT", i)
  {
    ContainsAt(Upper(ddl), "AUTOINCREMENT");
    Contains(Upper(ddl), "AUTOINCREMENT")
  }

  /** The columns kept by the insert filter, given whether the marker was
      found: a row is dropped only when its flag is 1 and the marker is in
      the DDL. */
  function Insertable(marker: bool, rows: seq<ColumnRow>): (cols: seq<string>)
    ensures |cols| <= |rows|
  {
    if rows == [] then []
    else (if rows[0].pk == 1 && marker then [] else [rows[0].name]) + Insertable(marker, rows[1..])
  }

  /** The columns `obtener_columnas_insert` asks a value for. */
  function InsertableColumns(ddl: string, rows: seq<ColumnRow>): (cols: seq<string>)
    ensures |cols| <= |rows|
    ensures IsSubsequence(cols, Names(rows))
  {
    InsertableIsSubsequence(HasAutoIncrement(ddl), rows);
    Insertable(HasAutoIncrement(ddl), rows)
  }

  lemma {:induction false} InsertableAppend(marker: bool, rows: seq<ColumnRow>, row: ColumnRow)
    ensures Insertable(marker, rows + [row])
         == Insertable(marker, rows) + (if row.pk == 1 && marker then [] else [row.name])
  {
    if rows == [] {
      assert [row][1..] == [];
    } else {
      assert (rows + [row])[1..] == rows[1..] + [row];
      InsertableAppend(marker, rows[1..], row);
    }
  }

  /** `obtener_columnas_insert`: upper-cases the DDL once, then walks the
      rows, skipping a flagged row when the marker is present and appending
      the name of every other row. */
  method InsertColumns(ddl: string, rows: seq<ColumnRow>) returns (cols: seq<string>)
    ensures cols == InsertableColumns(ddl, rows)
  {
    var schema := Upper(ddl);
    cols := [];
    for i := 0 to |rows|
      invariant cols == Insertable(Contains(schema, "AUTOINCREMENT"), rows[..i])
    {
      InsertableAppend(Contains(schema, "AUTOINCREMENT"), rows[..i], rows[i]);
      assert rows[..i + 1] == rows[..i] + [rows[i]];
      var isKey := rows[i].pk == 1;
      if isKey && Contains(schema, "AUTOINCREMENT") {
        continue;
      }
      cols := cols + [rows[i].name];
    }
    assert rows[..|rows|] == rows;
  }

  /** `xs` is obtained from `ys` by deleting some elements, keeping order. */
  predicate IsSubsequence(xs: seq<string>, ys: seq<string>)
  {
    xs == [] ||
    (ys != [] &&
     ((xs[0] == ys[0] && IsSubsequence(xs[1..], ys[1..])) || IsSubsequence(xs, ys[1..])))
  }

  /** The insert filter only deletes columns: what it keeps appears in
      catalog order. */
  lemma {:induction false} InsertableIsSubsequence(marker: bool, rows: seq<ColumnRow>)
    ensures IsSubsequence(Insertable(marker, rows), Names(rows))
  {
    if rows != [] {
      InsertableIsSubsequence(marker, rows[1..]);
      assert Names(rows)[1..] == Names(rows[1..]);
      var cols := Insertable(marker, rows);
      if rows[0].pk == 1 && marker {
        assert cols == Insertable(marker, rows[1..]);
      } else {
        assert cols[0] == Names(rows)[0];
        assert cols[1..] == Insertable(marker, rows[1..]);
      }
    }
  }

  /** A kept name is the name of some row, and one whose flag is not 1
      whenever the marker is present. */
  lemma {:induction false} InsertableFromRows(marker: bool, rows: seq<ColumnRow>, x: string)
    requires x in Insertable(marker, rows)
    ensures exists i :: 0 <= i < |rows| && rows[i].name == x && (marker ==> rows[i].pk != 1)
  {
    var head := if rows[0].pk == 1 && marker then [] else [rows[0].name];
    if x !in head {
      InsertableFromRows(marker, rows[1..], x);
      var i :| 0 <= i < |rows| - 1 && rows[1..][i].name == x && (marker ==> rows[1..][i].pk != 1);
      assert rows[i + 1] == rows[1..][i];
    }
  }

  /** Every column whose flag is not 1 is asked for, whatever the DDL says. */
  lemma {:induction false} InsertableKeepsNonKeys(marker: bool, rows: seq<ColumnRow>, i: int)
    requires 0 <= i < |rows| && rows[i].pk != 1
    ensures rows[i].name in Insertable(marker, rows)
  {
    if i > 0 {
      InsertableKeepsNonKeys(marker, rows[1..], i - 1);
    }
  }

  /** Without the marker in the DDL every column is asked for, unchanged
      and in catalog order. */
  lemma {:induction false} InsertableWithoutMarker(rows: seq<ColumnRow>)
    ensures Insertable(false, rows) == Names(rows)
  {
    if rows != [] {
      InsertableWithoutMarker(rows[1..]);
      assert Names(rows) == [rows[0].name] + Names(rows[1..]);
    }
  }

  /** Number of rows whose flag is exactly 1. */
  function FlaggedCount(rows: seq<ColumnRow>): nat
  {
    if rows == [] then 0 else (if rows[0].pk == 1 then 1 else 0) + FlaggedCount(rows[1..])
  }

  /** With the marker in the DDL, exactly the rows flagged 1 are dropped. */
  lemma {:induction false} InsertableWithMarker(rows: seq<ColumnRow>)
    ensures |Insertable(true, rows)| == |rows| - FlaggedCount(rows)
    ensures forall x :: x in Insertable(true, rows) <==>
                        exists i :: 0 <= i < |rows| && rows[i].name == x && rows[i].pk != 1
  {
    if rows != [] {
      InsertableWithMarker(rows[1..]);
    }
    forall x | x in Insertable(true, rows)
      ensures exists i :: 0 <= i < |rows| && rows[i].name == x && rows[i].pk != 1
    {
      InsertableFromRows(true, rows, x);
    }
    forall x | exists i :: 0 <= i < |rows| && rows[i].name == x && rows[i].pk != 1
      ensures x in Insertable(true, rows)
    {
      var i :| 0 <= i < |rows| && rows[i].name == x && rows[i].pk != 1;
      InsertableKeepsNonKeys(true, rows, i);
    }
  }

  /** Writing the marker anywhere in the DDL, in any ASCII letter case,
      switches the heuristic on: in a comment, a default value or the
      definition of an unrelated column just as well as after the key. */
  lemma MarkerAnywhere(before: string, marker: string, after: string)
    requires Upper(marker) == "AUTOINCREMENT"
    ensures HasAutoIncrement(before + marker + after)
  {
    UpperConcat(before + marker, after);
    UpperConcat(before, marker);
    ContainsInside(Upper(before), "AUTOINCREMENT", Upper(after));
  }

  /** The primary key is left out of the insert exactly when the DDL
      carries the marker; otherwise it is asked for like any column. */
  lemma KeyInsertableIffNoMarker(ddl: string, rows: seq<ColumnRow>)
    requires DistinctNames(rows)
    requires PrimaryKey(rows).Some?
    ensures PrimaryKey(rows).value in InsertableColumns(ddl, rows) <==> !HasAutoIncrement(ddl)
  {
    var k := PrimaryKey(rows).value;
    NoPrimaryKeyIffNoFlag(rows);
    var i :| 0 <= i < |rows| && rows[i].pk == 1;
    var first := FirstFlagged(rows, i);
    PrimaryKeyIsFirstFlagged(rows, first);
    if HasAutoIncrement(ddl) {
      InsertableWithMarker(rows);
      assert forall j :: 0 <= j < |rows| && rows[j].name == k ==> j == first;
    } else {
      InsertableWithoutMarker(rows);
    }
  }

  /** The position of the first row flagged 1, given that row `i` is one. */
  lemma {:induction false} FirstFlaggedExists(rows: seq<ColumnRow>, i: int)
    requires 0 <= i < |rows| && rows[i].pk == 1
    ensures exists f :: 0 <= f <= i && rows[f].pk == 1 && forall j :: 0 <= j < f ==> rows[j].pk != 1
  {
    if i > 0 && exists j :: 0 <= j < i && rows[j].pk == 1 {
      var j :| 0 <= j < i && rows[j].pk == 1;
      FirstFlaggedExists(rows, j);
    }
  }

  ghost function FirstFlagged(rows: seq<ColumnRow>, i: int): (f: int)
    requires 0 <= i < |rows| && rows[i].pk == 1
    ensures 0 <= f <= i && rows[f].pk == 1 && forall j :: 0 <= j < f ==> rows[j].pk != 1
  {
    FirstFlaggedExists(rows, i);
    var f :| 0 <= f <= i && rows[f].pk == 1 && forall j :: 0 <= j < f ==> rows[j].pk != 1;
    f
  }
}

=== FILE: statements.dfy ===
/** The SQL text the CRUD flows of `prueba_db.py` build with f-strings and
    `", ".join`, together with the parameter tuple each flow binds. Table
    and column names are interpolated as they are, without quoting. */
module Statements {
  import opened Text

  /** SQL text and the values bound to its `?` placeholders, in order. */
  datatype Statement = Statement(sql: string, params: seq<string>)

  /** SQLite binds one value per `?`: a statement is executable only when
      its text holds as many placeholders as it has parameters. */
  predicate BindsAllPlaceholders(st: Statement)
  {
    Count(st.sql, '?') == |st.params|
  }

  /** An identifier that does not itself contain a `?`. */
  predicate PlainName(name: string)
  {
    '?' !in name
  }

  /** The positional placeholder of Python's sqlite3 module. */
  const Mark: string := "?"

  /** `", ".join(["?"] * n)`. */
  function Placeholders(n: nat): (marks: string)
    ensures |marks| == if n == 0 then 0 else 3 * n - 2
  {
    SumLengthsRepeat(Mark, n);
    Join(", ", Repeat(Mark, n))
  }

  /** The placeholder list holds exactly `n` question marks, and its length
      is that of `n` marks separated by `", "`. */
  lemma PlaceholdersCount(n: nat)
    ensures Count(Placeholders(n), '?') == n
    ensures |Placeholders(n)| == if n == 0 then 0 else 3 * n - 2
  {
    CountJoin(", ", Repeat(Mark, n), '?');
    CountAllRepeat(Mark, n, '?');
  }

  lemma {:induction false} SumLengthsRepeat(x: string, n: nat)
    ensures SumLengths(Repeat(x, n)) == |x| * n
  {
    if n > 0 {
      assert Repeat(x, n)[1..] == Repeat(x, n - 1);
      SumLengthsRepeat(x, n - 1);
    }
  }

  /** `INSERT INTO {tabla} ({columnas_str}) VALUES ({placeholders})`, bound
      with the values in the order they were read. */
  function BuildInsert(table: string, columns: seq<string>, values: seq<string>): (st: Statement)
    ensures st.params == values
  {
    Statement("INSERT INTO " + table + " (" + Join(", ", columns) + ") VALUES ("
              + Placeholders(|values|) + ")",
              values)
  }

  /** `UPDATE {tabla} SET {col_actualizar} = ? WHERE {pk} = ?`, bound with
      `(nuevo_valor, id_val)`. */
  function BuildUpdate(table: string, column: string, key: string, newValue: string, keyValue: string): (st: Statement)
    ensures st.params == [newValue, keyValue]
  {
    Statement("UPDATE " + table + " SET " + column + " = " + Mark + " WHERE " + key + " = " + Mark,
              [newValue, keyValue])
  }

  /** `DELETE FROM {tabla} WHERE {pk} = ?`, bound with `(id_val,)`. */
  function BuildDelete(table: string, key: string, keyValue: string): (st: Statement)
    ensures st.params == [keyValue]
  {
    Statement("DELETE FROM " + table + " WHERE " + key + " = " + Mark, [keyValue])
  }

  /** `SELECT * FROM {tabla}`, run without parameters. */
  function BuildSelectAll(table: string): (st: Statement)
    ensures st.params == []
  {
    Statement("SELECT * FROM " + table, [])
  }

  /** The INSERT text carries one placeholder per bound value, so the values
      line up with the listed columns. */
  lemma InsertBindsAll(table: string, columns: seq<string>, values: seq<string>)
    requires PlainName(table) && forall i :: 0 <= i < |columns| ==> PlainName(columns[i])
    ensures BindsAllPlaceholders(BuildInsert(table, columns, values))
    ensures BuildInsert(table, columns, values).params == values
  {
    CountJoin(", ", columns, '?');
    CountAllAbsent(columns, '?');
    CountZero(Join(", ", columns), '?');
    PlaceholdersCount(|values|);
    InsertTextCount(table, Join(", ", columns), Placeholders(|values|));
  }

  lemma InsertTextCount(table: string, list: string, marks: string)
    requires '?' !in table && '?' !in list
    ensures Count("INSERT INTO " + table + " (" + list + ") VALUES (" + marks + ")", '?')
         == Count(marks, '?')
  {
    var head := "INSERT INTO " + table + " (" + list + ") VALUES (";
    CountZero(head, '?');
    CountZero(")", '?');
    CountConcat(head, marks, '?');
    CountConcat(head + marks, ")", '?');
  }

  /** The UPDATE text has exactly two placeholders: the new value, then the
      key value. */
  lemma UpdateBindsTwo(table: string, column: string, key: string, newValue: string, keyValue: string)
    requires PlainName(table) && PlainName(column) && PlainName(key)
    ensures BindsAllPlaceholders(BuildUpdate(table, column, key, newValue, keyValue))
    ensures BuildUpdate(table, column, key, newValue, keyValue).params == [newValue, keyValue]
  {
    UpdateTextCount(table, column, key);
  }

  lemma UpdateTextCount(table: string, column: string, key: string)
    requires '?' !in table && '?' !in column && '?' !in key
    ensures Count("UPDATE " + table + " SET " + column + " = " + Mark + " WHERE " + key + " = " + Mark, '?') == 2
  {
    UpdateHeadCount(table, column);
    FixedPieces();
    CountZero(key, '?');
    CountSix("UPDATE " + table + " SET " + column + " = ", Mark, " WHERE ", key, " = ", Mark, '?');
  }

  lemma UpdateHeadCount(table: string, column: string)
    requires '?' !in table && '?' !in column
    ensures Count("UPDATE " + table + " SET " + column + " = ", '?') == 0
  {
    CountZero("UPDATE " + table + " SET " + column + " = ", '?');
  }

  /** The fixed pieces around the placeholders hold no `?`; the mark is one. */
  lemma FixedPieces()
    ensures Count(Mark, '?') == 1 && Count(" = ", '?') == 0 && Count(" WHERE ", '?') == 0
  {
  }

  /** The DELETE text has exactly one placeholder, for the key value. */
  lemma DeleteBindsOne(table: string, key: string, keyValue: string)
    requires PlainName(table) && PlainName(key)
    ensures BindsAllPlaceholders(BuildDelete(table, key, keyValue))
    ensures BuildDelete(table, key, keyValue).params == [keyValue]
  {
    DeleteTextCount(table, key);
  }

  lemma DeleteTextCount(table: string, key: string)
    requires '?' !in table && '?' !in key
    ensures Count("DELETE FROM " + table + " WHERE " + key + " = " + Mark, '?') == 1
  {
    var head := "DELETE FROM " + table + " WHERE " + key + " = ";
    CountZero(head, '?');
    CountConcat(head, Mark, '?');
  }

  /** The SELECT text has no placeholder and is run with none. */
  lemma SelectAllBindsNone(table: string)
    requires PlainName(table)
    ensures BindsAllPlaceholders(BuildSelectAll(table))
  {
    CountZero("SELECT * FROM " + table, '?');
  }

  lemma CountSix(a: string, b: string, c: string, d: string, e: string, f: string, ch: char)
    ensures Count(a + b + c + d + e + f, ch)
         == Count(a, ch) + Count(b, ch) + Count(c, ch) + Count(d, ch) + Count(e, ch) + Count(f, ch)
  {
    CountFour(a, b, c, d, ch);
    CountConcat(a + b + c + d, e, ch);
    CountConcat(a + b + c + d + e, f, ch);
  }

  lemma CountFour(a: string, b: string, c: string, d: string, ch: char)
    ensures Count(a + b + c + d, ch) == Count(a, ch) + Count(b, ch) + Count(c, ch) + Count(d, ch)
  {
    CountConcat(a, b, ch);
    CountConcat(a + b, c, ch);
    CountConcat(a + b + c, d, ch);
  }
}

=== FILE: text.dfy ===
/** String helpers standing for the Python built-ins the tool relies on:
    `sep.join(xs)`, `[x] * n`, `"-" * n`, `str.upper()`, `str.lower()`,
    the substring test `t in s`, and counting one character in a text.
    Case mapping is restricted to ASCII letters. */
module Text {

  /** Sum of the lengths of a list of strings, `sum(len(c) for c in xs)`. */
  function SumLengths(xs: seq<string>): nat
  {
    if xs == [] then 0 else |xs[0]| + SumLengths(xs[1..])
  }

  /** Python's `sep.join(xs)`: the items in order, separated by `sep`. */
  function Join(sep: string, xs: seq<string>): (r: string)
    ensures |r| == SumLengths(xs) + (if xs == [] then 0 else |sep| * (|xs| - 1))
  {
    if xs == [] then ""
    else if |xs| == 1 then xs[0]
    else xs[0] + sep + Join(sep, xs[1..])
  }

  /** Python's `[x] * n`, and `c * n` for a one-character string `c`. */
  function Repeat<T>(x: T, n: nat): (r: seq<T>)
    ensures |r| == n && forall i :: 0 <= i < n ==> r[i] == x
  {
    seq(n, _ => x)
  }

  /** Number of occurrences of `c` in `s`. */
  function Count(s: string, c: char): (n: nat)
    ensures n <= |s|
  {
    if s == [] then 0
    else (if s[0] == c then 1 else 0) + Count(s[1..], c)
  }

  lemma {:induction false} CountConcat(a: string, b: string, c: char)
    ensures Count(a + b, c) == Count(a, c) + Count(b, c)
  {
    if a == [] {
      assert a + b == b;
    } else {
      assert (a + b)[1..] == a[1..] + b;
      CountConcat(a[1..], b, c);
    }
  }

  /** A character is absent exactly when it is counted zero times. */
  lemma {:induction false} CountZero(s: string, c: char)
    ensures Count(s, c) == 0 <==> c !in s
  {
    if s != [] {
      CountZero(s[1..], c);
      assert s == [s[0]] + s[1..];
    }
  }

  /** When the separator does not contain `c`, the occurrences of `c` in a
      joined list are exactly those of its items. */
  lemma {:induction false} CountJoin(sep: string, xs: seq<string>, c: char)
    requires c !in sep
    ensures Count(Join(sep, xs), c) == CountAll(xs, c)
  {
    if |xs| > 1 {
      CountZero(sep, c);
      CountJoin(sep, xs[1..], c);
      CountConcat(xs[0] + sep, Join(sep, xs[1..]), c);
      CountConcat(xs[0], sep, c);
    }
  }

  /** Total occurrences of `c` over a list of strings. */
  function CountAll(xs: seq<string>, c: char): nat
  {
    if xs == [] then 0 else Count(xs[0], c) + CountAll(xs[1..], c)
  }

  lemma {:induction false} CountAllAbsent(xs: seq<string>, c: char)
    requires forall i :: 0 <= i < |xs| ==> c !in xs[i]
    ensures CountAll(xs, c) == 0
  {
    if xs != [] {
      CountZero(xs[0], c);
      CountAllAbsent(xs[1..], c);
    }
  }

  lemma {:induction false} CountAllRepeat(x: string, n: nat, c: char)
    ensures CountAll(Repeat(x, n), c) == Count(x, c) * n
  {
    if n > 0 {
      assert Repeat(x, n)[1..] == Repeat(x, n - 1);
      CountAllRepeat(x, n - 1, c);
    }
  }

  /** ASCII upper-casing of one character. */
  function UpperChar(c: char): char
  {
    if 'a' <= c <= 'z' then (c as int - 32) as char else c
  }

  /** ASCII lower-casing of one character. */
  function LowerChar(c: char): char
  {
    if 'A' <= c <= 'Z' then (c as int + 32) as char else c
  }

  /** `s.upper()` restricted to ASCII: no lower-case ASCII letter survives. */
  function Upper(s: string): (r: string)
    ensures |r| == |s|
    ensures forall i :: 0 <= i < |r| ==> !('a' <= r[i] <= 'z')
  {
    seq(|s|, i requires 0 <= i < |s| => UpperChar(s[i]))
  }

  /** `s.lower()` restricted to ASCII: no upper-case ASCII letter survives. */
  function Lower(s: string): (r: string)
    ensures |r| == |s|
    ensures forall i :: 0 <= i < |r| ==> !('A' <= r[i] <= 'Z')
  {
    seq(|s|, i requires 0 <= i < |s| => LowerChar(s[i]))
  }

  lemma UpperConcat(a: string, b: string)
    ensures Upper(a + b) == Upper(a) + Upper(b)
  {
  }

  /** Python's substring test `t in s`. */
  function Contains(s: string, t: string): bool
  {
    if t <= s then true
    else if s == [] then false
    else Contains(s[1..], t)
  }

  /** `t` occurs in `s` starting at position `i`. */
  predicate OccursAt(s: string, t: string, i: int)
  {
    0 <= i <= |s| - |t| && s[i..i + |t|] == t
  }

  /** `Contains` holds exactly when `t` occurs at some position of `s`. */
  lemma ContainsAt(s: string, t: string)
    ensures Contains(s, t) <==> exists i :: OccursAt(s, t, i)
  {
    if Contains(s, t) {
      var i := ContainsWitness(s, t);
    }
    forall i | OccursAt(s, t, i)
      ensures Contains(s, t)
    {
      OccursContains(s, t, i);
    }
  }

  /** A position where `t` occurs, whenever `Contains` holds. */
  lemma {:induction false} ContainsWitness(s: string, t: string) returns (i: int)
    requires Contains(s, t)
    ensures OccursAt(s, t, i)
  {
    if t <= s {
      i := 0;
    } else {
      var j := ContainsWitness(s[1..], t);
      assert s[1..][j..j + |t|] == s[j + 1..j + 1 + |t|];
      i := j + 1;
    }
  }

  /** An occurrence at any position is found by `Contains`. */
  lemma {:induction false} OccursContains(s: string, t: string, i: int)
    requires OccursAt(s, t, i)
    ensures Contains(s, t)
  {
    if i > 0 && !(t <= s) {
      assert s[1..][i - 1..i - 1 + |t|] == s[i..i + |t|];
      OccursContains(s[1..], t, i - 1);
    }
  }

  /** A text contains whatever is written anywhere inside it. */
  lemma ContainsInside(p: string, t: string, q: string)
    ensures Contains(p + t + q, t)
  {
    ContainsAt(p + t + q, t);
    assert OccursAt(p + t + q, t, |p|);
  }
}
